=== FILE: README.md ===
# User management: validation, repository and request handlers

This project models the decision logic of a small user-management API over a
single `users` table, and proves properties of the model in Dafny. It has three layers:

- **Validation.** These are the two zod schemas. `userIdSchema` coerces the route id with
  `Number()` and accepts it only if the result is an integer greater than zero.
  `updateUserSchema` accepts three optional fields (`name`, `email`, `role`) and
  strips every other key. The model follows zod's parsing rules:
  - string checks run in the order they are declared;
  - `trim` and `toLowerCase` are steps in that sequence and rewrite the value;
  - every failing check adds an issue;
  - `.optional()` admits only `undefined`.
- **Repository.** The model has `getAllUsers`, `getUserById`, `updateUser` and `deleteUser` over
  a table modelled as a map from primary key to row. Every result goes through
  the credential-free `baseUserSelection` projection. "Not found" is a separate
  error value, `NotFound`, instead of an error string. The update first checks that the record exists, then
  writes only the fields that are present and stamps `updated_at` from a clock
  parameter. The delete returns the record as it was before deletion.
- **Request handlers.** `fetchAllUsers`, `getUserById`, `updateUser` and
  `deleteUser` are pure functions. The two read handlers map the request (if any)
  and the table to a response. The update handler maps (request, table, clock) to
  (response, table afterwards), and the delete handler maps (request, table) to
  (response, table afterwards). The mutating pipeline is fixed:
  1. validate the id;
  2. validate the body;
  3. require an actor;
  4. allow only the record's owner or an admin;
  5. let only an admin change a role;
  6. call the repository;
  7. shape the response.

Files: `wrappers.dfy` (Option, Result), `js_values.dfy` (JavaScript values and
the `Number()`, `trim` and `toLowerCase` built-ins the schemas apply),
`user_model.dfy` (role, row, projection, table invariants), `validation.dfy`,
`user_service.dfy`, `user_controller.dfy`.

Facts about the schemas and handlers that a reader might not expect:

- `min(2).max(255)` apply to the untrimmed name, and the trim comes afterwards.
  So `"  "` is accepted and stored as `""` (`Validation.NameBoundsPrecedeTrim`).
  The trimmed name is therefore not always 2 to 255 characters long.
- The email syntax check and the 255 limit also apply to the string as
  received, before lower-casing and trimming. `"  A@B.COM "` becomes `"a@b.com"`
  only if the email predicate accepts the padded string (`Validation.EmailNormalised`).
  zod's own email pattern admits no whitespace, so it refuses that input; with
  it, the email `.trim()` only ever sees strings with no surrounding whitespace.
- The id schema has no upper bound; any positive integer is accepted.
- The refusal reasons are the handlers' own messages ("You can only update your
  own account", "Only admins can change user roles", "You can only delete your
  own account").
- Unknown update keys are stripped, not refused (`Validation.UnknownKeysIgnored`).

## Model

| member | source | states |
|---|---|---|
| JsValues.Trim | src/validations/users.validation.js:10-11 | the trimmed string neither starts nor ends with whitespace, and it is a contiguous slice of the input with only whitespace cut from either side |
| JsValues.TrimPadded | src/validations/users.validation.js:11 | trimming `p + s + q` gives exactly `s` when `p` and `q` are blank and `s` is non-empty and unpadded |
| JsValues.TrimBlank | src/validations/users.validation.js:10 | a string made only of whitespace trims to the empty string |
| JsValues.TrimIdempotent | src/validations/users.validation.js:10-11 | trimming twice gives the same result as trimming once |
| JsValues.ToLower | src/validations/users.validation.js:11 | lower-casing keeps the length, turns each letter A to Z into its lower-case counterpart, leaves every other character in place, and so leaves no upper-case letter |
| JsValues.TrimToLowerCommute | src/validations/users.validation.js:11 | trimming and lower-casing commute, so the email's `toLowerCase` followed by `trim` equals `trim` followed by `toLowerCase` |
| JsValues.DecimalRoundTrip | src/validations/users.validation.js:5 | `Number()` of the decimal numeral of a natural number is that number |
| JsValues.NegativeDecimalRoundTrip | src/validations/users.validation.js:5 | `Number()` of a minus sign followed by the numeral of `n` is `-n` |
| JsValues.StringToNumberOfFraction | src/validations/users.validation.js:5 | `Number()` of a numeral with a fractional part is its integer part plus the digits after the point read as a fraction |
| JsValues.FractionNumeralBetween | src/validations/users.validation.js:5 | a numeral whose fractional digits are not all zero denotes a number strictly between its integer part and the next integer |
| JsValues.StringToNumber | src/validations/users.validation.js:5 | `Number()` of a string: a blank string is 0, and a negative result needs a leading minus sign after trimming |
| JsValues.NumberIgnoresPadding | src/validations/users.validation.js:5 | whitespace around a numeral does not change the number it denotes |
| JsValues.NumberOfNumeralAgrees | src/controllers/user.controller.js:87 | `Number()` gives the same value for a natural number and for its decimal numeral, so comparing ids after `Number()` cannot tell the two forms apart |
| Validation.ValidateUserId | src/validations/users.validation.js:4-6 | the id is accepted exactly when `Number(id)` is an integer greater than 0, and the result is that integer; every refusal is a non-empty list of issues on `id` |
| Validation.ValidateUserIdRoundTrip | src/validations/users.validation.js:5 | the numeral of every positive integer is accepted as that integer |
| Validation.ValidateUserIdOfString | src/validations/users.validation.js:5 | for a string id, the verdict depends only on the number the string denotes: accepted exactly when it is a positive integer |
| Validation.ValidateUserIdRejectsNumber | src/validations/users.validation.js:5 | zero, negative and non-integral numbers are refused |
| Validation.ValidateUserIdRejectsNegativeNumeral | src/validations/users.validation.js:5 | every negative numeral is refused |
| Validation.ValidateUserIdRejectsZeroNumeral | src/validations/users.validation.js:5 | the numeral "0" is refused |
| Validation.ValidateUserIdRejectsFractionNumeral | src/validations/users.validation.js:5 | a route id such as "1.5", a numeral with a non-zero fractional part, is refused by `.int()` |
| Validation.ValidateUserIdRejectsNonInteger | src/validations/users.validation.js:5 | any string that denotes a non-integral number is refused |
| Validation.ValidateUserIdRejectsNonNumeric | src/validations/users.validation.js:5 | a missing id and the id "abc" are refused with a single type issue on `id` |
| Validation.ParseName | src/validations/users.validation.js:10 | the name is accepted exactly when it is absent or a string of 2 to 255 characters as received; the stored value is that string trimmed |
| Validation.ParseEmail | src/validations/users.validation.js:11 | the email is accepted exactly when it is absent or a string that satisfies the email predicate and has at most 255 characters; the result is lower-cased and then trimmed, so it has no upper-case letter and no surrounding whitespace |
| Validation.ParseRole | src/validations/users.validation.js:12 | the role is accepted exactly when it is absent or exactly "user" or "admin", and the result is the role with that spelling |
| Validation.ValidateUpdate | src/validations/users.validation.js:9-13 | the payload is accepted exactly when it is an object whose three fields each pass their schema; a refusal has an issue on a field exactly when that field fails; on success each field is set exactly when it was sent as a string, with the normalised value |
| Validation.EmptyPayloadIsNoChange | src/validations/users.validation.js:9-13 | the empty payload validates to an update that sets no field |
| Validation.UnknownKeysIgnored | src/validations/users.validation.js:9-13 | keys other than name, email and role never change the outcome |
| Validation.NameOnlyUpdate | src/validations/users.validation.js:10 | a payload carrying only a name with an acceptable raw length yields just that name, trimmed |
| Validation.NameBoundsPrecedeTrim | src/validations/users.validation.js:10 | a name of two spaces passes the length bounds and is stored as the empty string |
| Validation.EmailOnlyUpdate | src/validations/users.validation.js:11 | a payload carrying only an acceptable email yields just that email, lower-cased and then trimmed |
| Validation.EmailNormalised | src/validations/users.validation.js:11 | `"  A@B.COM "` becomes `"a@b.com"` when the email predicate accepts the string as received |
| UserModel.ProjectLosesOnlyCredential | src/services/user.service.js:6-13 | two rows under one id project to the same record exactly when they differ at most in the password, so the projection hides the credential and nothing else |
| UserService.GetAllUsers | src/services/user.service.js:6-17 | the list has one projected record per stored row: each id appears once, each record is the projection of its row, and there are as many records as rows |
| UserService.GetUserById | src/services/user.service.js:24-36 | the result is a record exactly when the id is stored; it is then the projection of that row and carries the requested id; otherwise it is `NotFound` |
| UserService.GetAgreesWithList | src/services/user.service.js:15-36 | an id can be fetched exactly when it is listed, and fetching it returns the listed record |
| UserService.ApplyIdempotent | src/services/user.service.js:57-60 | writing the same update at the same instant twice gives the row that writing it once gives |
| UserService.ApplyNoChanges | src/services/user.service.js:57-60 | writing an update with no fields changes only `updated_at`, which becomes the clock |
| UserService.UpdateUser | src/services/user.service.js:43-65 | an absent id gives `NotFound` and leaves the table unchanged; a present id changes only the fields present in the update, sets `updated_at` to the clock, keeps the credential and `created_at`, leaves every other row untouched and returns the projection of the new row |
| UserService.EmptyUpdateOnlyStamps | src/services/user.service.js:55-62 | the empty update keeps name, email and role and only sets `updated_at` |
| UserService.UpdateIdempotent | src/services/user.service.js:55-62 | repeating an update at the same instant leaves the table as the first update did |
| UserService.UpdatePreservesValid | src/services/user.service.js:55-62 | given a clock no earlier than the row's creation, an update keeps emails unique and keeps `updated_at` no earlier than `created_at` |
| UserService.DeleteUser | src/services/user.service.js:72-84 | a present id is removed, with no other change, and its projection as it was before deletion is returned; an absent id gives `NotFound` and leaves the table unchanged |
| UserService.DeleteTwiceNotFound | src/services/user.service.js:79-81 | a second delete of the same id gives `NotFound` and changes nothing |
| UserService.GetAfterDeleteNotFound | src/services/user.service.js:72-84 | after a delete, fetching the same id gives `NotFound` |
| UserService.DeletePreservesValid | src/services/user.service.js:72-77 | a delete keeps the table's invariants |
| UserController.UpdateVerdict | src/controllers/user.controller.js:82-101 | an update is permitted exactly when an actor is present who is an admin, or who is the target and sets no role; each refusal has its own reason, matching its own condition |
| UserController.DeleteVerdict | src/controllers/user.controller.js:134-146 | a delete is permitted exactly when an actor is present who is the target or an admin |
| UserController.IsAdmin | src/controllers/user.controller.js:86 | an actor is an admin exactly when the update schema would parse its role string as the admin role, so the check recognises exactly the spelling the validator stores as `Admin` |
| UserController.IsSelf | src/controllers/user.controller.js:87 | the actor is the target when its id is the target id as a number or as the decimal numeral; an undefined or object id is never the target |
| UserController.Respond | src/controllers/user.controller.js:106-117 | a repository result is a 200 response exactly when it is a record; `NotFound` becomes the 404 response exactly; every other failure, such as an email clash on update, is handed to the next middleware unchanged |
| UserController.FetchAllUsers | src/controllers/user.controller.js:14-28 | the list response is a 200 whose `count` equals the number of users it carries, and that list is the listing of the table |
| UserController.GetUserById | src/controllers/user.controller.js:30-59 | success exactly when the id is valid and stored, and the response then carries that record; an invalid id gives 400 with its issues; an unknown id gives 404 |
| UserController.UpdateUser | src/controllers/user.controller.js:61-119 | a request with a valid id and body whose verdict is permit gets exactly the repository update, shaped into a response; every response other than 200 leaves the table unchanged; the set of ids never changes; a change needs a valid id and an actor who is the target or an admin; a non-admin never changes any stored role; a 200 carries the projection of the updated row, stamped with the clock |
| UserController.DeleteUser | src/controllers/user.controller.js:121-164 | a request with a valid id whose verdict is permit gets exactly the repository delete, shaped into a response; every response other than 200 leaves the table unchanged; a change removes exactly the target and needs an actor who is the target or an admin; a 200 carries the record as it was before deletion |
| UserController.InvalidIdRejectedFirst | src/controllers/user.controller.js:30-39 | an invalid id gets 400 with issues that mention `id` from get, update and delete alike, whatever the body and actor, and the table is unchanged |
| UserController.InvalidBodyRejectedBeforeActor | src/controllers/user.controller.js:63-84 | a valid id with an invalid body gets 400 on update even when no actor is present |
| UserController.MissingActorUnauthorized | src/controllers/user.controller.js:82-84 | a well-formed update or delete without an actor gets 401 and leaves the table unchanged |
| UserController.StrangerForbidden | src/controllers/user.controller.js:86-94 | an actor who is neither the target nor an admin gets 403 with the handler's message on update and delete, and the table is unchanged |
| UserController.RoleChangeNeedsAdmin | src/controllers/user.controller.js:96-101 | a non-admin who sets a role gets 403, even on their own record |
| UserController.AdminReachesRepository | src/controllers/user.controller.js:86-104 | for an admin, a valid update or delete goes straight to the repository, for any target and for role changes |
| UserController.OwnerUpdatesOwnRecord | src/controllers/user.controller.js:86-109 | a non-admin owner who sends no role updates their own record: the stored row takes the validated fields, keeps its role, and is returned with 200 |
| UserController.OwnerDeletesOwnRecord | src/controllers/user.controller.js:138-154 | a non-admin owner deletes their own record and gets it back, as it was, with 200 |
| UserController.MissingRecordNotFound | src/controllers/user.controller.js:110-115 | an unknown id that passed validation and authorization gets 404 from get, update and delete, and the table is unchanged |
| UserController.NonAdminNeverChangesRoles | src/controllers/user.controller.js:86-101 | no update or delete by a non-admin changes the role stored for any remaining user |
| UserController.DeleteTwiceNotFound | src/controllers/user.controller.js:149-160 | after a successful delete, the same request gets 404 |
| UserController.NonNumericIdScenario | src/controllers/user.controller.js:30-39 | `GET /users/abc` gets 400 with an issue on `id` |
| UserController.AuthorizationScenarios | src/controllers/user.controller.js:86-101 | user 5 may rename themselves; user 5 may not update user 7; user 5 may not set a role on themselves; admin 9 may set a role on user 5 |
| UserController.DeleteThenGetScenario | src/controllers/user.controller.js:121-154 | `DELETE /users/5` by user 5 returns the stored record, and a following `GET /users/5` gets 404 |

## Left out

- Logging (`logger.info`, `logger.error`) is left out: it is a side effect with no bearing on results.
- The error middleware reached through `next(e)` is left out. The model stops at the `Forwarded` response.
- `formatValidationError` is not part of this model. Validation details are the raw list of issues, each a field path and an issue kind, and not zod's message strings.
- Drizzle query building, the Neon driver, `src/config/database.config.js` and `test-db.js` are left out. They are connection plumbing and I/O.
- Async suspension is left out, along with the race where a record is deleted between `updateUser`'s existence check and its write. The model is sequential.
- The users table definition is not part of this model. The row holds the projected columns plus one credential column, `password`.
- `created_at` and the creation of users happen outside this code, and the model does not cover them.
- Real clocks are left out. `updated_at` comes from a `now` parameter, and timestamps are integers.
- Storage failures other than the email uniqueness constraint are left out: connectivity, timeouts and other constraint violations.
- UserService.GetAllUsers: lists users in ascending id order. The table promises no order, and the model needs a deterministic one.
- JsValues.ToLower: changes only the letters A to Z. JavaScript's `toLowerCase` applies full Unicode case mapping.
- JsValues.StringToNumber: decimal literals with an optional sign, integer part and fraction are modelled. Exponents, hexadecimal, octal and binary literals and "Infinity" count as NaN here, while JavaScript accepts them. A numeral's value is exact, without binary floating-point rounding, and no safe-integer limit is applied. Numerals beyond `Number.MAX_VALUE` become `Infinity` in JavaScript, which `.int()` refuses; the model accepts them as integers.
- JsValues.Value: arrays are not represented. Objects coerce to NaN.
- Validation.ParseName: lengths count Unicode scalar values. JavaScript counts UTF-16 code units, so the two differ for characters outside the Basic Multilingual Plane.
- Validation.ParseEmail: the `max(255)` bound likewise counts Unicode scalar values, not UTF-16 code units.
- Validation.ParseEmail: email syntax is a predicate parameter (`isEmail`), not zod's regular expression.

=== FILE: js_values.dfy ===
/** JavaScript values as the validators receive them, and the three built-ins the
    validation schemas apply to them: `Number()` (the coercion of `z.coerce.number()`),
    `String.prototype.trim` and `String.prototype.toLowerCase`. */
module JsValues {
  import opened Wrappers

  /** A JSON-shaped JavaScript value. Route parameters arrive as strings, request
      bodies as parsed JSON; numbers are finite, since JSON carries no NaN. */
  datatype Value =
    | Undefined
    | Null
    | Bool(b: bool)
    | Num(x: real)
    | Str(s: string)
    | Object(fields: map<string, Value>)

  /** Property access: a key the object does not have reads as `undefined`. */
  function Get(fields: map<string, Value>, key: string): Value
  {
    if key in fields then fields[key] else Undefined
  }

  // ---------------------------------------------------------------------------
  // trim

  /** The WhiteSpace and LineTerminator code points of ECMAScript 2023,
      sections 12.2 and 12.3: what `trim` strips and what `Number()` ignores. */
  predicate IsWhitespace(c: char)
  {
    || c == '\t' || c == '\n' || c == '\U{B}' || c == '\U{C}' || c == '\r' || c == ' '
    || c == '\U{A0}' || c == '\U{1680}' || ('\U{2000}' <= c <= '\U{200A}')
    || c == '\U{2028}' || c == '\U{2029}' || c == '\U{202F}' || c == '\U{205F}'
    || c == '\U{3000}' || c == '\U{FEFF}'
  }

  predicate Blank(s: string)
  {
    forall k :: 0 <= k < |s| ==> IsWhitespace(s[k])
  }

  /** Neither starts nor ends with whitespace. */
  predicate Unpadded(s: string)
  {
    s == [] || (!IsWhitespace(s[0]) && !IsWhitespace(s[|s| - 1]))
  }

  /** The length of the longest whitespace prefix. */
  function LeadingSpace(s: string): (n: nat)
    ensures n <= |s|
    ensures Blank(s[..n])
    ensures n < |s| ==> !IsWhitespace(s[n])
  {
    if s != [] && IsWhitespace(s[0]) then 1 + LeadingSpace(s[1..]) else 0
  }

  /** The length of the longest whitespace suffix. */
  function TrailingSpace(s: string): (n: nat)
    ensures n <= |s|
    ensures Blank(s[|s| - n..])
    ensures n < |s| ==> !IsWhitespace(s[|s| - n - 1])
  {
    if s != [] && IsWhitespace(s[|s| - 1]) then 1 + TrailingSpace(s[..|s| - 1]) else 0
  }

  /** `String.prototype.trim`: the slice left after dropping whitespace at both ends. */
  function Trim(s: string): (r: string)
    ensures Unpadded(r)
    ensures exists i, j :: 0 <= i <= j <= |s| && r == s[i..j] && Blank(s[..i]) && Blank(s[j..])
  {
    var a := LeadingSpace(s);
    var t := s[a..];
    var b := |s| - TrailingSpace(t);
    assert s[a..b] == t[..|t| - TrailingSpace(t)];
    assert s[b..] == t[|t| - TrailingSpace(t)..];
    s[a..b]
  }

  /** Trimming changes nothing in a string that is already unpadded. */
  lemma TrimUnpadded(s: string)
    requires Unpadded(s)
    ensures Trim(s) == s
  {
    if s != [] {
      assert LeadingSpace(s) == 0;
      assert TrailingSpace(s) == 0;
    }
  }

  lemma {:induction false} LeadingSpaceOfPadded(p: string, s: string)
    requires Blank(p) && s != [] && !IsWhitespace(s[0])
    ensures LeadingSpace(p + s) == |p|
  {
    if p != [] {
      assert (p + s)[1..] == p[1..] + s;
      LeadingSpaceOfPadded(p[1..], s);
    }
  }

  lemma {:induction false} TrailingSpaceOfPadded(s: string, q: string)
    requires Blank(q) && s != [] && !IsWhitespace(s[|s| - 1])
    ensures TrailingSpace(s + q) == |q|
  {
    if q != [] {
      assert (s + q)[..|s + q| - 1] == s + q[..|q| - 1];
      TrailingSpaceOfPadded(s, q[..|q| - 1]);
    }
  }

  /** Trimming removes exactly the blank padding around a non-empty unpadded string. */
  lemma TrimPadded(p: string, s: string, q: string)
    requires Blank(p) && Blank(q) && Unpadded(s) && s != []
    ensures Trim(p + s + q) == s
  {
    var x := p + s + q;
    assert x == p + (s + q);
    LeadingSpaceOfPadded(p, s + q);
    assert x[|p|..] == s + q;
    TrailingSpaceOfPadded(s, q);
    assert x[|p|..|x| - |q|] == s;
  }

  lemma {:induction false} LeadingSpaceOfBlank(s: string)
    requires Blank(s)
    ensures LeadingSpace(s) == |s|
  {
    if s != [] {
      LeadingSpaceOfBlank(s[1..]);
    }
  }

  /** A string made only of whitespace trims to the empty string. */
  lemma TrimBlank(s: string)
    requires Blank(s)
    ensures Trim(s) == []
  {
    LeadingSpaceOfBlank(s);
    assert s[|s|..] == [];
    assert TrailingSpace(s[|s|..]) == 0;
  }

  /** `trim` is idempotent. */
  lemma TrimIdempotent(s: string)
    ensures Trim(Trim(s)) == Trim(s)
  {
    TrimUnpadded(Trim(s));
  }

  // ---------------------------------------------------------------------------
  // toLowerCase

  predicate IsUpper(c: char)
  {
    'A' <= c <= 'Z'
  }

  predicate NoUpper(s: string)
  {
    forall k :: 0 <= k < |s| ==> !IsUpper(s[k])
  }

  function LowerChar(c: char): (d: char)
    ensures !IsUpper(d)
    ensures IsUpper(c) ==> d as int == c as int + 32
    ensures !IsUpper(c) ==> d == c
  {
    if IsUpper(c) then (c as int + 32) as char else c
  }

  /** `String.prototype.toLowerCase` on the letters A to Z. */
  function ToLower(s: string): (r: string)
    ensures |r| == |s|
    ensures NoUpper(r)
    ensures forall k :: 0 <= k < |s| && !IsUpper(s[k]) ==> r[k] == s[k]
    ensures forall k :: 0 <= k < |s| && IsUpper(s[k]) ==> r[k] as int == s[k] as int + 32
  {
    seq(|s|, k requires 0 <= k < |s| => LowerChar(s[k]))
  }

  /** Lower-casing never turns whitespace into non-whitespace or back. */
  lemma LowerKeepsWhitespace(c: char)
    ensures IsWhitespace(LowerChar(c)) <==> IsWhitespace(c)
  {
  }

  lemma {:induction false} LeadingSpaceOfLower(s: string)
    ensures LeadingSpace(ToLower(s)) == LeadingSpace(s)
  {
    if s != [] {
      var l := ToLower(s);
      var rest := s[1..];
      assert l[0] == LowerChar(s[0]);
      LowerKeepsWhitespace(s[0]);
      ToLowerSuffix(s, 1);
      LeadingSpaceOfLower(rest);
    }
  }

  lemma {:induction false} TrailingSpaceOfLower(s: string)
    ensures TrailingSpace(ToLower(s)) == TrailingSpace(s)
  {
    if s != [] {
      var l := ToLower(s);
      var init := s[..|s| - 1];
      assert l[|l| - 1] == LowerChar(s[|s| - 1]);
      LowerKeepsWhitespace(s[|s| - 1]);
      assert l[..|l| - 1] == ToLower(init);
      TrailingSpaceOfLower(init);
    }
  }

  /** Trimming and lower-casing commute, so the email schema's
      `toLowerCase` then `trim` equals `trim` then `toLowerCase`. */
  lemma TrimToLowerCommute(s: string)
    ensures Trim(ToLower(s)) == ToLower(Trim(s))
  {
    var a := LeadingSpace(s);
    var b := |s| - TrailingSpace(s[a..]);
    TrimBetween(s, a, b);
    TrimOfLower(s, a, b);
    ToLowerSlice(s, a, b);
  }

  /** Lower-casing leaves the trimmed positions where they were. */
  lemma TrimOfLower(s: string, a: nat, b: nat)
    requires a == LeadingSpace(s) && b == |s| - TrailingSpace(s[a..])
    ensures a <= b <= |s|
    ensures Trim(ToLower(s)) == ToLower(s)[a..b]
  {
    LeadingSpaceOfLower(s);
    ToLowerSuffix(s, a);
    TrailingSpaceOfLower(s[a..]);
    assert |ToLower(s)| == |s|;
    TrimBetween(ToLower(s), a, b);
  }

  /** `Trim` keeps exactly the positions between its leading and trailing whitespace. */
  lemma TrimBetween(s: string, a: nat, b: nat)
    requires a == LeadingSpace(s) && b == |s| - TrailingSpace(s[a..])
    ensures Trim(s) == s[a..b]
  {
  }

  lemma ToLowerSlice(s: string, i: nat, j: nat)
    requires i <= j <= |s|
    ensures ToLower(s)[i..j] == ToLower(s[i..j])
  {
  }

  lemma ToLowerSuffix(s: string, i: nat)
    requires i <= |s|
    ensures ToLower(s)[i..] == ToLower(s[i..])
  {
    ToLowerSlice(s, i, |s|);
    assert ToLower(s)[i..] == ToLower(s)[i..|s|] && s[i..] == s[i..|s|];
  }

  // ---------------------------------------------------------------------------
  // Number()

  predicate IsDigit(c: char)
  {
    '0' <= c <= '9'
  }

  predicate AllDigits(s: string)
  {
    forall k :: 0 <= k < |s| ==> IsDigit(s[k])
  }

  /** The value of a string of decimal digits, most significant first. */
  function DigitsValue(s: string): nat
    requires AllDigits(s)
  {
    if s == [] then 0 else 10 * DigitsValue(s[..|s| - 1]) + (s[|s| - 1] as int - '0' as int)
  }

  function Pow10(k: nat): (p: nat)
    ensures p >= 1
  {
    if k == 0 then 1 else 10 * Pow10(k - 1)
  }

  /** The length of the longest digit prefix. */
  function LeadingDigits(s: string): (n: nat)
    ensures n <= |s|
    ensures AllDigits(s[..n])
    ensures n < |s| ==> !IsDigit(s[n])
  {
    if s != [] && IsDigit(s[0]) then 1 + LeadingDigits(s[1..]) else 0
  }

  /** The value of the digits after a decimal point. */
  function Fraction(digits: string): (f: real)
    requires AllDigits(digits)
    ensures 0.0 <= f
  {
    DigitsValue(digits) as real / Pow10(|digits|) as real
  }

  /** An unsigned decimal literal `digits [ "." digits ]` with at least one digit;
      `None` is NaN. */
  function UnsignedDecimal(t: string): (r: Option<real>)
    ensures r.Some? ==> r.value >= 0.0
  {
    var i := LeadingDigits(t);
    var whole := DigitsValue(t[..i]) as real;
    if i == |t| then
      if i == 0 then None else Some(whole)
    else if t[i] == '.' && AllDigits(t[i + 1..]) && (i > 0 || i + 1 < |t|) then
      Some(whole + Fraction(t[i + 1..]))
    else
      None
  }

  /** ToNumber applied to a string (ECMAScript 2023, section 7.1.4.1.1): surrounding
      whitespace is ignored, the empty string is 0, a sign may precede the literal. */
  function StringToNumber(s: string): (r: Option<real>)
    ensures Blank(s) ==> r == Some(0.0)
    ensures r.Some? && r.value < 0.0 ==> Trim(s) != [] && Trim(s)[0] == '-'
  {
    assert Blank(s) ==> Trim(s) == [] by {
      if Blank(s) {
        TrimBlank(s);
      }
    }
    NumberOfTrimmed(Trim(s))
  }

  /** The number an already trimmed string denotes: empty is 0, and a sign may
      precede the unsigned literal. */
  function NumberOfTrimmed(t: string): (r: Option<real>)
    ensures t == [] ==> r == Some(0.0)
    ensures r.Some? && r.value < 0.0 ==> t != [] && t[0] == '-'
  {
    if t == [] then Some(0.0)
    else if t[0] == '-' then
      match UnsignedDecimal(t[1..])
      case Some(x) => Some(-x)
      case None => None
    else if t[0] == '+' then UnsignedDecimal(t[1..])
    else UnsignedDecimal(t)
  }

  /** Whitespace around a numeral does not change the number it denotes. */
  lemma NumberIgnoresPadding(p: string, s: string, q: string)
    requires Blank(p) && Blank(q) && Unpadded(s) && s != []
    ensures StringToNumber(p + s + q) == StringToNumber(s)
  {
    var x := p + s + q;
    assert Trim(x) == s by { TrimPadded(p, s, q); }
    assert Trim(s) == s by { TrimUnpadded(s); }
    NumberOfSameTrim(x, s);
  }

  /** `Number()` of a string reads only what `trim` leaves of it. */
  lemma NumberOfSameTrim(x: string, y: string)
    requires Trim(x) == Trim(y)
    ensures StringToNumber(x) == StringToNumber(y)
  {
  }

  /** `Number(v)` (ECMAScript 2023, section 7.1.4); `None` is NaN. */
  function ToNumber(v: Value): (r: Option<real>)
    ensures v.Num? ==> r == Some(v.x)
    ensures v.Str? ==> r == StringToNumber(v.s)
    ensures v == Null || v == Bool(false) ==> r == Some(0.0)
    ensures v == Bool(true) ==> r == Some(1.0)
    ensures v == Undefined || v.Object? ==> r == None
  {
    match v
    case Undefined => None
    case Null => Some(0.0)
    case Bool(b) => Some(if b then 1.0 else 0.0)
    case Num(x) => Some(x)
    case Str(s) => StringToNumber(s)
    case Object(_) => None
  }

  // ---------------------------------------------------------------------------
  // Decimal rendering, the inverse of Number() on naturals

  function DigitChar(d: nat): (c: char)
    requires d < 10
    ensures IsDigit(c) && c as int - '0' as int == d
  {
    ('0' as int + d) as char
  }

  /** The decimal numeral of `n`, without sign or leading zeros. */
  function Decimal(n: nat): string
  {
    if n < 10 then [DigitChar(n)] else Decimal(n / 10) + [DigitChar(n % 10)]
  }

  lemma {:induction false} DecimalDigits(n: nat)
    ensures |Decimal(n)| >= 1
    ensures AllDigits(Decimal(n))
    ensures DigitsValue(Decimal(n)) == n
  {
    if n >= 10 {
      DecimalDigits(n / 10);
      var s := Decimal(n);
      assert s[..|s| - 1] == Decimal(n / 10);
    }
  }

  /** A decimal numeral read as an unsigned literal is its own value. */
  lemma UnsignedDecimalOfDecimal(n: nat)
    ensures UnsignedDecimal(Decimal(n)) == Some(n as real)
  {
    var s := Decimal(n);
    DecimalDigits(n);
    assert LeadingDigits(s) == |s|;
    assert s[..|s|] == s;
  }

  /** `Number()` of the decimal numeral of `n` is `n`, in this model's exact arithmetic. */
  lemma DecimalRoundTrip(n: nat)
    ensures StringToNumber(Decimal(n)) == Some(n as real)
  {
    var s := Decimal(n);
    DecimalDigits(n);
    assert Unpadded(s);
    TrimUnpadded(s);
    UnsignedDecimalOfDecimal(n);
  }

  /** `Number()` of "-" followed by the decimal numeral of `n` is `-n`, in this model's exact arithmetic. */
  lemma NegativeDecimalRoundTrip(n: nat)
    ensures StringToNumber("-" + Decimal(n)) == Some(-(n as real))
  {
    var s := Decimal(n);
    DecimalDigits(n);
    var t := "-" + s;
    assert t[|t| - 1] == s[|s| - 1];
    assert Unpadded(t);
    TrimUnpadded(t);
    assert t[0] == '-' && t[1..] == s;
    UnsignedDecimalOfDecimal(n);
  }

  /** A natural number and its decimal numeral coerce to the same number, so
      a comparison after `Number()` cannot tell the two carriers apart. */
  lemma NumberOfNumeralAgrees(n: nat)
    ensures ToNumber(Num(n as real)) == ToNumber(Str(Decimal(n)))
  {
    DecimalRoundTrip(n);
  }

  /** A digit string denotes less than ten to the power of its length. */
  lemma {:induction false} DigitsBelowPow10(d: string)
    requires AllDigits(d)
    ensures DigitsValue(d) < Pow10(|d|)
  {
    if d != [] {
      DigitsBelowPow10(d[..|d| - 1]);
    }
  }

  /** The digits after a decimal point denote a value in [0, 1), and a positive
      one when some digit is not zero. */
  lemma FractionBelowOne(d: string)
    requires AllDigits(d)
    ensures Fraction(d) < 1.0
    ensures DigitsValue(d) > 0 ==> Fraction(d) > 0.0
  {
    DigitsBelowPow10(d);
    RatioBelowOne(DigitsValue(d), Pow10(|d|));
  }

  lemma RatioBelowOne(a: nat, b: nat)
    requires a < b
    ensures a as real / b as real < 1.0
    ensures a > 0 ==> a as real / b as real > 0.0
  {
    var q := a as real / b as real;
    assert q * (b as real) == a as real;
  }

  /** The digit prefix of a digit string followed by a non-digit is that string. */
  lemma {:induction false} LeadingDigitsOfConcat(s: string, rest: string)
    requires AllDigits(s) && rest != [] && !IsDigit(rest[0])
    ensures LeadingDigits(s + rest) == |s|
  {
    if s != [] {
      assert (s + rest)[1..] == s[1..] + rest;
      LeadingDigitsOfConcat(s[1..], rest);
    }
  }

  /** `Number()` of a numeral with a fractional part: the integer part plus the
      digits after the point read as a fraction. */
  lemma StringToNumberOfFraction(n: nat, d: string)
    requires d != [] && AllDigits(d)
    ensures StringToNumber(Decimal(n) + "." + d) == Some(n as real + Fraction(d))
  {
    var w := Decimal(n);
    DecimalDigits(n);
    var t := w + "." + d;
    assert t == w + ("." + d);
    LeadingDigitsOfConcat(w, "." + d);
    assert t[..|w|] == w;
    assert t[|w|] == '.';
    assert t[|w| + 1..] == d;
    assert UnsignedDecimal(t) == Some(n as real + Fraction(d));
    assert t[0] == w[0] && t[|t| - 1] == d[|d| - 1];
    assert Unpadded(t);
    TrimUnpadded(t);
    assert IsDigit(t[0]);
  }

  /** A numeral with a non-zero fractional part lies strictly between its
      integer part and the next integer. */
  lemma FractionNumeralBetween(n: nat, d: string)
    requires d != [] && AllDigits(d) && DigitsValue(d) > 0
    ensures StringToNumber(Decimal(n) + "." + d).Some?
    ensures n as real < StringToNumber(Decimal(n) + "." + d).value < n as real + 1.0
  {
    StringToNumberOfFraction(n, d);
    FractionBelowOne(d);
  }
}

=== FILE: user_controller.dfy ===
/** The request handlers, as pure functions. The two read handlers map the
    request (if any) and the table to a response. The update handler maps the
    request, the table and the clock to the response and the table afterwards;
    the delete handler maps the request and the table to the same pair. The
    mutating handlers are a fixed fail-fast pipeline: validate the route id,
    validate the body, require an actor, check ownership or admin rights, check
    role changes, call the repository, shape the response. */
module UserController {
  import opened Wrappers
  import opened JsValues
  import opened UserModel
  import opened Validation
  import Service = UserService

  /** The caller identity an authentication layer attaches to the request. Its id
      is compared numerically, after `Number()`; its role is an arbitrary string. */
  datatype Actor = Actor(id: Value, role: string)

  /** What a handler reads from the request: route parameters, body and actor. */
  datatype Request = Request(params: map<string, Value>, body: Value, user: Option<Actor>)

  /** The JSON bodies the handlers send. */
  datatype Payload =
    | ErrorDetails(error: string, details: seq<Issue>)
    | ErrorOnly(error: string)
    | ErrorMessage(error: string, message: string)
    | UsersPayload(message: string, users: seq<PublicUser>, count: int)
    | UserPayload(message: string, user: PublicUser)

  /** A JSON reply with a status code, or an error handed to the next middleware. */
  datatype Response =
    | Reply(status: nat, payload: Payload)
    | Forwarded(cause: Service.ServiceError)

  /** A response together with the table after the request. */
  datatype Handled = Handled(response: Response, store: Store)

  const ListedMessage := "Successfully retrieved users"
  const RetrievedMessage := "Successfully retrieved user"
  const UpdatedMessage := "User updated successfully"
  const DeletedMessage := "User deleted successfully"
  const UpdateOthersMessage := "You can only update your own account"
  const RoleChangeMessage := "Only admins can change user roles"
  const DeleteOthersMessage := "You can only delete your own account"

  function BadRequest(details: seq<Issue>): Response
  {
    Reply(400, ErrorDetails("Validation failed", details))
  }

  const Unauthorized := Reply(401, ErrorOnly("Unauthorized"))

  function Forbidden(message: string): Response
  {
    Reply(403, ErrorMessage("Forbidden", message))
  }

  const UserNotFound := Reply(404, ErrorOnly("User not found"))

  predicate IsSuccess(r: Response)
  {
    r.Reply? && r.status == 200
  }

  // ---------------------------------------------------------------------------
  // authorization

  /** `req.user.role === 'admin'`: the actor holds exactly the role string that
      the update schema accepts as the admin role. */
  predicate IsAdmin(a: Actor)
    ensures IsAdmin(a) <==> ParseRole(Str(a.role)) == Ok(Some(Admin))
    ensures IsAdmin(a) <==> a.role == RoleName(Admin)
    ensures IsAdmin(a) ==> a.role != RoleName(User)
  {
    a.role == "admin"
  }

  /** `Number(req.user.id) === Number(id)`: the actor id matches whether it is
      carried as a number or as a numeral, and an id that coerces to NaN
      matches nothing. */
  predicate IsSelf(a: Actor, id: int)
    ensures a.id == Num(id as real) ==> IsSelf(a, id)
    ensures id >= 0 && a.id == Str(Decimal(id)) ==> IsSelf(a, id)
    ensures a.id == Undefined || a.id.Object? ==> !IsSelf(a, id)
    ensures IsSelf(a, id) && a.id.Num? ==> a.id.x == id as real
  {
    assert id >= 0 ==> StringToNumber(Decimal(id)) == Some(id as real) by {
      if id >= 0 {
        DecimalRoundTrip(id);
      }
    }
    ToNumber(a.id) == Some(id as real)
  }

  /** The outcome of the authorization checks. */
  datatype Verdict = Permit | Unauthenticated | Denied(reason: string)

  /** The checks `updateUser` makes after validation, in its order: an actor is
      required; it must be the target or an admin; only an admin may set a role. */
  function UpdateVerdict(user: Option<Actor>, id: int, updates: UserUpdate): (v: Verdict)
    ensures v == Unauthenticated <==> user.None?
    ensures v == Permit <==>
      user.Some? && (IsAdmin(user.value) || (IsSelf(user.value, id) && updates.role.None?))
    ensures v == Denied(UpdateOthersMessage) <==>
      user.Some? && !IsAdmin(user.value) && !IsSelf(user.value, id)
    ensures v == Denied(RoleChangeMessage) <==>
      user.Some? && !IsAdmin(user.value) && IsSelf(user.value, id) && updates.role.Some?
  {
    match user
    case None => Unauthenticated
    case Some(actor) =>
      if !IsSelf(actor, id) && !IsAdmin(actor) then Denied(UpdateOthersMessage)
      else if updates.role.Some? && !IsAdmin(actor) then Denied(RoleChangeMessage)
      else Permit
  }

  /** The checks `deleteUser` makes after validation: an actor is required, and it
      must be the target or an admin. */
  function DeleteVerdict(user: Option<Actor>, id: int): (v: Verdict)
    ensures v == Unauthenticated <==> user.None?
    ensures v == Permit <==> user.Some? && (IsAdmin(user.value) || IsSelf(user.value, id))
    ensures v == Denied(DeleteOthersMessage) <==>
      user.Some? && !IsAdmin(user.value) && !IsSelf(user.value, id)
  {
    match user
    case None => Unauthenticated
    case Some(actor) =>
      if !IsSelf(actor, id) && !IsAdmin(actor) then Denied(DeleteOthersMessage) else Permit
  }

  /** The response for a verdict other than `Permit`. */
  function Refusal(v: Verdict): Response
    requires v != Permit
  {
    if v.Unauthenticated? then Unauthorized else Forbidden(v.reason)
  }

  /** Shapes a repository result: `NotFound` becomes 404, any other failure goes to
      the next middleware, a record is sent with the success message. */
  function Respond(r: Result<PublicUser, Service.ServiceError>, message: string): (resp: Response)
    ensures IsSuccess(resp) <==> r.Ok?
    ensures r == Err(Service.NotFound) <==> resp == UserNotFound
    ensures r.Ok? ==> resp.payload == UserPayload(message, r.value)
    ensures r.Err? && r.error != Service.NotFound ==> resp == Forwarded(r.error)
  {
    match r
    case Ok(user) => Reply(200, UserPayload(message, user))
    case Err(e) => if e == Service.NotFound then UserNotFound else Forwarded(e)
  }

  // ---------------------------------------------------------------------------
  // handlers

  /** `fetchAllUsers`: the whole table with its count. */
  function FetchAllUsers(store: Store): (r: Response)
    ensures IsSuccess(r) && r.payload.UsersPayload?
    ensures r.payload.count == |r.payload.users| == |store|
    ensures Service.IsListing(r.payload.users, store)
  {
    var users := Service.GetAllUsers(store);
    Reply(200, UsersPayload(ListedMessage, users, |users|))
  }

  /** `getUserById`: validate the id, then fetch. Reading needs no actor. */
  function GetUserById(req: Request, store: Store): (r: Response)
    ensures IsSuccess(r) <==> ValidateUserId(req.params).Ok? && ValidateUserId(req.params).value in store
    ensures IsSuccess(r) ==>
      var id := ValidateUserId(req.params).value;
      r.payload == UserPayload(RetrievedMessage, Project(id, store[id]))
    ensures ValidateUserId(req.params).Err? ==> r == BadRequest(ValidateUserId(req.params).error)
    ensures ValidateUserId(req.params).Ok? && ValidateUserId(req.params).value !in store ==> r == UserNotFound
  {
    match ValidateUserId(req.params)
    case Err(details) => BadRequest(details)
    case Ok(id) => Respond(Service.GetUserById(store, id), RetrievedMessage)
  }

  /** `updateUser`. */
  function UpdateUser(req: Request, store: Store, now: int, isEmail: string -> bool): (h: Handled)
    ensures !IsSuccess(h.response) ==> h.store == store
    ensures h.store.Keys == store.Keys
    ensures h.store != store ==>
      && req.user.Some?
      && ValidateUserId(req.params).Ok?
      && (IsAdmin(req.user.value) || IsSelf(req.user.value, ValidateUserId(req.params).value))
    ensures req.user.Some? && !IsAdmin(req.user.value) ==>
      forall k :: k in store ==> h.store[k].role == store[k].role
    ensures IsSuccess(h.response) ==>
      ValidateUserId(req.params).Ok? && ValidateUserId(req.params).value in store
    ensures
      var idCheck := ValidateUserId(req.params);
      var bodyCheck := ValidateUpdate(req.body, isEmail);
      idCheck.Ok? && bodyCheck.Ok? && UpdateVerdict(req.user, idCheck.value, bodyCheck.value) == Permit ==>
        var m := Service.UpdateUser(store, idCheck.value, bodyCheck.value, now);
        h == Handled(Respond(m.result, UpdatedMessage), m.store)
    ensures IsSuccess(h.response) ==>
      var id := ValidateUserId(req.params).value;
      && h.response.payload.UserPayload?
      && h.response.payload.user == Project(id, h.store[id])
      && h.store[id].updatedAt == now
  {
    match ValidateUserId(req.params)
    case Err(details) => Handled(BadRequest(details), store)
    case Ok(id) =>
      match ValidateUpdate(req.body, isEmail)
      case Err(details) => Handled(BadRequest(details), store)
      case Ok(updates) =>
        var verdict := UpdateVerdict(req.user, id, updates);
        if verdict != Permit then
          Handled(Refusal(verdict), store)
        else
          var m := Service.UpdateUser(store, id, updates, now);
          Handled(Respond(m.result, UpdatedMessage), m.store)
  }

  /** `deleteUser`. */
  function DeleteUser(req: Request, store: Store): (h: Handled)
    ensures !IsSuccess(h.response) ==> h.store == store
    ensures h.store != store ==>
      && req.user.Some?
      && ValidateUserId(req.params).Ok?
      && var id := ValidateUserId(req.params).value;
      && (IsAdmin(req.user.value) || IsSelf(req.user.value, id))
      && h.store == store - {id}
    ensures IsSuccess(h.response) ==> ValidateUserId(req.params).Ok?
    ensures
      var idCheck := ValidateUserId(req.params);
      idCheck.Ok? && DeleteVerdict(req.user, idCheck.value) == Permit ==>
        var m := Service.DeleteUser(store, idCheck.value);
        h == Handled(Respond(m.result, DeletedMessage), m.store)
    ensures IsSuccess(h.response) ==>
      var id := ValidateUserId(req.params).value;
      && id in store && id !in h.store
      && h.response.payload == UserPayload(DeletedMessage, Project(id, store[id]))
    ensures h.store.Keys <= store.Keys
    ensures forall k :: k in h.store ==> h.store[k] == store[k]
  {
    match ValidateUserId(req.params)
    case Err(details) => Handled(BadRequest(details), store)
    case Ok(id) =>
      var verdict := DeleteVerdict(req.user, id);
      if verdict != Permit then
        Handled(Refusal(verdict), store)
      else
        var m := Service.DeleteUser(store, id);
        Handled(Respond(m.result, DeletedMessage), m.store)
  }

  // ---------------------------------------------------------------------------
  // properties of the pipeline

  /** An invalid route id is answered 400 with its issues by every handler that
      takes one, before the body, the actor or the table is looked at. */
  lemma InvalidIdRejectedFirst(req: Request, store: Store, now: int, isEmail: string -> bool)
    requires ValidateUserId(req.params).Err?
    ensures var details := ValidateUserId(req.params).error;
      && Mentions(details, "id")
      && GetUserById(req, store) == BadRequest(details)
      && UpdateUser(req, store, now, isEmail) == Handled(BadRequest(details), store)
      && DeleteUser(req, store) == Handled(BadRequest(details), store)
  {
    assert ValidateUserId(req.params).error[0].path == "id";
  }

  /** Body validation precedes the actor check: a malformed update gets 400 even
      when no actor is present. */
  lemma InvalidBodyRejectedBeforeActor(req: Request, store: Store, now: int, isEmail: string -> bool)
    requires ValidateUserId(req.params).Ok?
    requires ValidateUpdate(req.body, isEmail).Err?
    ensures UpdateUser(req, store, now, isEmail)
         == Handled(BadRequest(ValidateUpdate(req.body, isEmail).error), store)
  {
  }

  /** A well-formed update or delete without an actor gets 401 and changes nothing. */
  lemma MissingActorUnauthorized(req: Request, store: Store, now: int, isEmail: string -> bool)
    requires req.user.None? && ValidateUserId(req.params).Ok?
    ensures DeleteUser(req, store) == Handled(Unauthorized, store)
    ensures ValidateUpdate(req.body, isEmail).Ok? ==>
      UpdateUser(req, store, now, isEmail) == Handled(Unauthorized, store)
  {
  }

  /** An actor who is neither the target nor an admin gets 403 on update and delete,
      and the table is unchanged. */
  lemma StrangerForbidden(req: Request, store: Store, now: int, isEmail: string -> bool)
    requires req.user.Some? && !IsAdmin(req.user.value)
    requires ValidateUserId(req.params).Ok? && !IsSelf(req.user.value, ValidateUserId(req.params).value)
    ensures DeleteUser(req, store) == Handled(Forbidden(DeleteOthersMessage), store)
    ensures ValidateUpdate(req.body, isEmail).Ok? ==>
      UpdateUser(req, store, now, isEmail) == Handled(Forbidden(UpdateOthersMessage), store)
  {
  }

  /** A non-admin asking for any role, even on their own record, gets 403. */
  lemma RoleChangeNeedsAdmin(req: Request, store: Store, now: int, isEmail: string -> bool)
    requires req.user.Some? && !IsAdmin(req.user.value)
    requires ValidateUserId(req.params).Ok? && IsSelf(req.user.value, ValidateUserId(req.params).value)
    requires ValidateUpdate(req.body, isEmail).Ok? && ValidateUpdate(req.body, isEmail).value.role.Some?
    ensures UpdateUser(req, store, now, isEmail) == Handled(Forbidden(RoleChangeMessage), store)
  {
  }

  /** An admin passes both authorization checks for any target, role changes
      included: a valid request goes straight to the repository. */
  lemma AdminReachesRepository(req: Request, store: Store, now: int, isEmail: string -> bool)
    requires req.user.Some? && IsAdmin(req.user.value)
    requires ValidateUserId(req.params).Ok?
    ensures var id := ValidateUserId(req.params).value;
      var m := Service.DeleteUser(store, id);
      DeleteUser(req, store) == Handled(Respond(m.result, DeletedMessage), m.store)
    ensures ValidateUpdate(req.body, isEmail).Ok? ==>
      var id := ValidateUserId(req.params).value;
      var m := Service.UpdateUser(store, id, ValidateUpdate(req.body, isEmail).value, now);
      UpdateUser(req, store, now, isEmail) == Handled(Respond(m.result, UpdatedMessage), m.store)
  {
  }

  /** An owner who is not an admin may update their own record: the stored row
      takes the validated name and email, keeps its role, and is returned. */
  lemma OwnerUpdatesOwnRecord(req: Request, store: Store, now: int, isEmail: string -> bool)
    requires req.user.Some? && !IsAdmin(req.user.value)
    requires ValidateUserId(req.params).Ok? && ValidateUserId(req.params).value in store
    requires IsSelf(req.user.value, ValidateUserId(req.params).value)
    requires ValidateUpdate(req.body, isEmail).Ok? && ValidateUpdate(req.body, isEmail).value.role.None?
    requires !Service.EmailHeldByOther(store, ValidateUserId(req.params).value, ValidateUpdate(req.body, isEmail).value.email)
    ensures var id := ValidateUserId(req.params).value;
      var updates := ValidateUpdate(req.body, isEmail).value;
      var h := UpdateUser(req, store, now, isEmail);
      && h.store == store[id := Service.Apply(store[id], updates, now)]
      && h.response == Reply(200, UserPayload(UpdatedMessage, Project(id, h.store[id])))
      && h.store[id].role == store[id].role
  {
  }

  /** An owner who is not an admin may delete their own record, and gets it back
      as it was. */
  lemma OwnerDeletesOwnRecord(req: Request, store: Store)
    requires req.user.Some? && !IsAdmin(req.user.value)
    requires ValidateUserId(req.params).Ok? && ValidateUserId(req.params).value in store
    requires IsSelf(req.user.value, ValidateUserId(req.params).value)
    ensures var id := ValidateUserId(req.params).value;
      DeleteUser(req, store) == Handled(Reply(200, UserPayload(DeletedMessage, Project(id, store[id]))), store - {id})
  {
  }

  /** A record that does not exist is answered 404 by get, update and delete, once
      the request has passed validation and authorization. */
  lemma MissingRecordNotFound(req: Request, store: Store, now: int, isEmail: string -> bool)
    requires ValidateUserId(req.params).Ok? && ValidateUserId(req.params).value !in store
    ensures GetUserById(req, store) == UserNotFound
    ensures DeleteVerdict(req.user, ValidateUserId(req.params).value) == Permit ==>
      DeleteUser(req, store) == Handled(UserNotFound, store)
    ensures (&& ValidateUpdate(req.body, isEmail).Ok?
             && UpdateVerdict(req.user, ValidateUserId(req.params).value, ValidateUpdate(req.body, isEmail).value) == Permit)
        ==> UpdateUser(req, store, now, isEmail) == Handled(UserNotFound, store)
  {
  }

  /** No request by a non-admin changes the role stored for any user. */
  lemma NonAdminNeverChangesRoles(req: Request, store: Store, now: int, isEmail: string -> bool)
    requires req.user.Some? && !IsAdmin(req.user.value)
    ensures var after := UpdateUser(req, store, now, isEmail).store;
      forall k :: k in after ==> k in store && after[k].role == store[k].role
    ensures var after := DeleteUser(req, store).store;
      forall k :: k in after ==> k in store && after[k].role == store[k].role
  {
  }

  /** A second delete of the same id finds nothing. */
  lemma DeleteTwiceNotFound(req: Request, store: Store)
    requires IsSuccess(DeleteUser(req, store).response)
    ensures var once := DeleteUser(req, store);
      DeleteUser(req, once.store) == Handled(UserNotFound, once.store)
  {
  }

  // ---------------------------------------------------------------------------
  // scenarios

  /** `GET /users/abc` is answered 400 with an issue on `id`. */
  lemma NonNumericIdScenario(store: Store)
    ensures var r := GetUserById(Request(map["id" := Str("abc")], Undefined, None), store);
      r.status == 400 && r.payload.ErrorDetails? && Mentions(r.payload.details, "id")
  {
    ValidateUserIdRejectsNonNumeric();
    var details := [Issue("id", InvalidType)];
    assert details[0].path == "id";
  }

  /** Actor 5 with role "user" updating record 5: a name is allowed, a role is not,
      and record 7 is off limits; admin 9 may set a role on record 5. */
  lemma AuthorizationScenarios()
    ensures UpdateVerdict(Some(Actor(Num(5.0), "user")), 5, UserUpdate(Some("X"), None, None)) == Permit
    ensures UpdateVerdict(Some(Actor(Num(5.0), "user")), 7, UserUpdate(Some("X"), None, None)).Denied?
    ensures UpdateVerdict(Some(Actor(Num(5.0), "user")), 5, UserUpdate(None, None, Some(Admin))).Denied?
    ensures UpdateVerdict(Some(Actor(Num(9.0), "admin")), 5, UserUpdate(None, None, Some(Admin))) == Permit
  {
  }

  /** `DELETE /users/5` by user 5 on an existing record returns that record, and a
      following `GET /users/5` is answered 404. */
  lemma DeleteThenGetScenario(store: Store)
    requires 5 in store
    ensures var req := Request(map["id" := Str("5")], Undefined, Some(Actor(Num(5.0), "user")));
      var h := DeleteUser(req, store);
      && h.response == Reply(200, UserPayload(DeletedMessage, Project(5, store[5])))
      && GetUserById(req, h.store) == UserNotFound
  {
    DecimalRoundTrip(5);
    assert Decimal(5) == "5";
    ValidateUserIdOfString("5", 5.0);
    var req := Request(map["id" := Str("5")], Undefined, Some(Actor(Num(5.0), "user")));
    assert ValidateUserId(req.params) == Ok(5);
    assert DeleteVerdict(req.user, 5) == Permit;
    var h := DeleteUser(req, store);
    assert h == Handled(Respond(Service.DeleteUser(store, 5).result, DeletedMessage), store - {5});
  }
}

=== FILE: user_model.dfy ===
/** The single entity of the system: a row of the `users` table, the fixed
    credential-free projection every repository call returns, and the store. */
module UserModel {

  /** The two roles the `role` column can hold. */
  datatype Role = User | Admin

  /** The wire spelling of a role. */
  function RoleName(r: Role): string
  {
    match r
    case User => "user"
    case Admin => "admin"
  }

  /** A stored row, without its primary key. `password` is the credential column
      that no repository call may return; timestamps are clock readings. */
  datatype UserRow = UserRow(
    name: string,
    email: string,
    password: string,
    role: Role,
    createdAt: int,
    updatedAt: int)

  /** The columns of `baseUserSelection`: everything but the credential. */
  datatype PublicUser = PublicUser(
    id: int,
    name: string,
    email: string,
    role: Role,
    createdAt: int,
    updatedAt: int)

  /** The `users` table, keyed by primary key `id`. */
  type Store = map<int, UserRow>

  /** `baseUserSelection` applied to the row stored under `id`. */
  function Project(id: int, row: UserRow): (u: PublicUser)
    ensures u.id == id
    ensures u.name == row.name && u.email == row.email && u.role == row.role
    ensures u.createdAt == row.createdAt && u.updatedAt == row.updatedAt
  {
    PublicUser(id, row.name, row.email, row.role, row.createdAt, row.updatedAt)
  }

  /** The projection forgets the credential and nothing else: two rows under
      the same id look alike to every caller exactly when they differ at most
      in their password. */
  lemma ProjectLosesOnlyCredential(id: int, r1: UserRow, r2: UserRow)
    ensures Project(id, r1) == Project(id, r2) <==> r1.(password := "") == r2.(password := "")
  {
  }

  /** The storage engine's uniqueness constraint on the `email` column. */
  ghost predicate UniqueEmails(store: Store)
  {
    forall j, k :: j in store && k in store && j != k ==> store[j].email != store[k].email
  }

  /** No record was last updated before it was created. */
  ghost predicate TimestampsOrdered(store: Store)
  {
    forall k :: k in store ==> store[k].createdAt <= store[k].updatedAt
  }

  /** The invariants every live table satisfies. */
  ghost predicate Valid(store: Store)
  {
    UniqueEmails(store) && TimestampsOrdered(store)
  }
}

=== FILE: user_service.dfy ===
/** The repository over the `users` table: list, get by id, update and delete.
    Every call returns records through the `baseUserSelection` projection, and a
    missing record is the distinct error `NotFound`. The table is a map from
    primary key to row; a call that changes the table returns the new table. */
module UserService {
  import opened Wrappers
  import opened UserModel
  import opened Validation

  /** Why a repository call failed: no row has the id, or the storage engine
      refused the write because another row already holds the email. */
  datatype ServiceError = NotFound | EmailTaken

  /** The result of a call that may change the table, with the table after it. */
  datatype Mutation = Mutation(result: Result<PublicUser, ServiceError>, store: Store)

  // ---------------------------------------------------------------------------
  // getAllUsers

  predicate IsLeast(m: int, s: set<int>)
  {
    m in s && forall x :: x in s ==> m <= x
  }

  lemma {:induction false} LeastExists(s: set<int>)
    requires s != {}
    ensures exists m :: IsLeast(m, s)
  {
    assert (forall y :: y !in s) ==> s == {};
    var x :| x in s;
    if s != {x} {
      var smaller := s - {x};
      LeastExists(smaller);
      var m :| IsLeast(m, smaller);
      assert forall y :: y in s ==> y == x || y in smaller;
      if x < m {
        assert IsLeast(x, s);
      } else {
        assert IsLeast(m, s);
      }
    } else {
      assert IsLeast(x, s);
    }
  }

  /** The smallest key of a non-empty key set. */
  function Least(s: set<int>): (m: int)
    requires s != {}
    ensures m in s
    ensures forall x :: x in s ==> m <= x
  {
    LeastExists(s);
    var m :| IsLeast(m, s);
    m
  }

  /** The ids of a list of records. */
  function Ids(users: seq<PublicUser>): set<int>
  {
    if users == [] then {} else {users[0].id} + Ids(users[1..])
  }

  lemma {:induction false} InIds(users: seq<PublicUser>, id: int)
    ensures id in Ids(users) <==> exists i :: 0 <= i < |users| && users[i].id == id
  {
    if users != [] {
      InIds(users[1..], id);
      if id in Ids(users[1..]) {
        var i :| 0 <= i < |users[1..]| && users[1..][i].id == id;
        assert users[i + 1].id == id;
      }
      if exists i :: 0 <= i < |users| && users[i].id == id {
        var i :| 0 <= i < |users| && users[i].id == id;
        if i > 0 {
          assert users[1..][i - 1].id == id;
        }
      }
    }
  }

  /** `users` lists the table: one projected record per stored row, each id once,
      in ascending id order. */
  ghost predicate IsListing(users: seq<PublicUser>, store: Store)
  {
    && |users| == |store|
    && Ids(users) == store.Keys
    && (forall i :: 0 <= i < |users| ==>
          users[i].id in store && users[i] == Project(users[i].id, store[users[i].id]))
    && (forall i, j :: 0 <= i < j < |users| ==> users[i].id < users[j].id)
  }

  /** Listing the least row first, then the rest of the table, lists the table. */
  lemma ListingCons(store: Store, id: int, tail: seq<PublicUser>)
    requires id in store && forall k :: k in store ==> id <= k
    requires IsListing(tail, store - {id})
    ensures IsListing([Project(id, store[id])] + tail, store)
  {
    var rest := store - {id};
    assert rest.Keys == store.Keys - {id};
    var users := [Project(id, store[id])] + tail;
    assert users[1..] == tail;
    assert forall i :: 1 <= i < |users| ==> users[i] == tail[i - 1];
    assert forall i :: 0 <= i < |tail| ==> tail[i].id in rest;
  }

  /** `getAllUsers`: the whole table through the projection. The table promises no
      order; this model lists by ascending id. */
  function GetAllUsers(store: Store): (users: seq<PublicUser>)
    ensures IsListing(users, store)
    decreases |store|
  {
    if store.Keys == {} then
      assert store == map[];
      []
    else
      var id := Least(store.Keys);
      var rest := store - {id};
      assert rest.Keys == store.Keys - {id};
      var tail := GetAllUsers(rest);
      ListingCons(store, id, tail);
      [Project(id, store[id])] + tail
  }

  // ---------------------------------------------------------------------------
  // getUserById

  /** `getUserById`: the projection of the row with the requested id, or `NotFound`. */
  function GetUserById(store: Store, id: int): (r: Result<PublicUser, ServiceError>)
    ensures r.Ok? <==> id in store
    ensures r.Ok? ==> r.value.id == id && r.value == Project(id, store[id])
    ensures r.Err? ==> r.error == NotFound
  {
    if id in store then Ok(Project(id, store[id])) else Err(NotFound)
  }

  /** Get and list agree: a record is fetched by id exactly when it is listed. */
  lemma GetAgreesWithList(store: Store, id: int)
    ensures GetUserById(store, id).Ok? <==> exists i :: 0 <= i < |GetAllUsers(store)| && GetAllUsers(store)[i].id == id
    ensures forall i :: 0 <= i < |GetAllUsers(store)| && GetAllUsers(store)[i].id == id ==>
      GetUserById(store, id) == Ok(GetAllUsers(store)[i])
  {
    InIds(GetAllUsers(store), id);
  }

  // ---------------------------------------------------------------------------
  // updateUser

  /** Some row other than `id` already holds `email`. */
  predicate EmailHeldByOther(store: Store, id: int, email: Option<string>)
  {
    email.Some? && exists k :: k in store && k != id && store[k].email == email.value
  }

  /** The row after `.set({...updates, updated_at: now})`. */
  function Apply(row: UserRow, updates: UserUpdate, now: int): (after: UserRow)
    ensures updates.name.Some? ==> after.name == updates.name.value
    ensures updates.name.None? ==> after.name == row.name
    ensures updates.email.Some? ==> after.email == updates.email.value
    ensures updates.email.None? ==> after.email == row.email
    ensures updates.role.Some? ==> after.role == updates.role.value
    ensures updates.role.None? ==> after.role == row.role
    ensures after.password == row.password && after.createdAt == row.createdAt
    ensures after.updatedAt == now
  {
    row.(
      name := if updates.name.Some? then updates.name.value else row.name,
      email := if updates.email.Some? then updates.email.value else row.email,
      role := if updates.role.Some? then updates.role.value else row.role,
      updatedAt := now)
  }

  /** Writing the same update at the same instant twice is writing it once. */
  lemma ApplyIdempotent(row: UserRow, updates: UserUpdate, now: int)
    ensures Apply(Apply(row, updates, now), updates, now) == Apply(row, updates, now)
  {
  }

  /** An update with no fields only stamps `updated_at`. */
  lemma ApplyNoChanges(row: UserRow, now: int)
    ensures Apply(row, NoChanges, now) == row.(updatedAt := now)
  {
  }

  /** `updateUser`: an existence check, then the write of the present fields and
      the new `updated_at`, returning the projected row after the write. */
  function UpdateUser(store: Store, id: int, updates: UserUpdate, now: int): (m: Mutation)
    ensures id !in store ==> m == Mutation(Err(NotFound), store)
    ensures id in store && EmailHeldByOther(store, id, updates.email) ==> m == Mutation(Err(EmailTaken), store)
    ensures m.result.Err? ==> m.store == store
    ensures m.result.Ok? <==> id in store && !EmailHeldByOther(store, id, updates.email)
    ensures m.store.Keys == store.Keys
    ensures forall k :: k in store && k != id ==> m.store[k] == store[k]
    ensures m.result.Ok? ==>
      var before := store[id];
      var after := m.store[id];
      && m.result.value == Project(id, after)
      && m.result.value.id == id
      && after.name == (if updates.name.Some? then updates.name.value else before.name)
      && after.email == (if updates.email.Some? then updates.email.value else before.email)
      && after.role == (if updates.role.Some? then updates.role.value else before.role)
      && after.password == before.password
      && after.createdAt == before.createdAt
      && after.updatedAt == now
  {
    if id !in store then
      Mutation(Err(NotFound), store)
    else if EmailHeldByOther(store, id, updates.email) then
      Mutation(Err(EmailTaken), store)
    else
      var row := Apply(store[id], updates, now);
      Mutation(Ok(Project(id, row)), store[id := row])
  }

  /** The empty update changes nothing but `updated_at`. */
  lemma EmptyUpdateOnlyStamps(store: Store, id: int, now: int)
    requires id in store
    ensures UpdateUser(store, id, NoChanges, now).store == store[id := store[id].(updatedAt := now)]
    ensures UpdateUser(store, id, NoChanges, now).result
         == Ok(Project(id, store[id]).(updatedAt := now))
  {
  }

  /** Repeating an update at the same instant leaves the table as the first one did. */
  lemma UpdateIdempotent(store: Store, id: int, updates: UserUpdate, now: int)
    ensures var once := UpdateUser(store, id, updates, now);
            UpdateUser(once.store, id, updates, now).store == once.store
  {
    var once := UpdateUser(store, id, updates, now);
    if once.result.Ok? {
      assert !EmailHeldByOther(once.store, id, updates.email);
    }
  }

  /** An update keeps the table's invariants, given a clock that does not read
      earlier than the row's creation. */
  lemma UpdatePreservesValid(store: Store, id: int, updates: UserUpdate, now: int)
    requires Valid(store)
    requires id in store ==> store[id].createdAt <= now
    ensures Valid(UpdateUser(store, id, updates, now).store)
  {
  }

  // ---------------------------------------------------------------------------
  // deleteUser

  /** `deleteUser`: removes the row and returns it as it was, or `NotFound`. */
  function DeleteUser(store: Store, id: int): (m: Mutation)
    ensures id !in store ==> m == Mutation(Err(NotFound), store)
    ensures id in store ==> m.result == Ok(Project(id, store[id])) && m.result.value.id == id
    ensures m.store.Keys == store.Keys - {id}
    ensures forall k :: k in m.store ==> m.store[k] == store[k]
    ensures id in store ==> |m.store| == |store| - 1
  {
    if id in store then
      var rest := store - {id};
      assert rest.Keys == store.Keys - {id};
      Mutation(Ok(Project(id, store[id])), rest)
    else
      Mutation(Err(NotFound), store)
  }

  /** Deleting twice: the second call finds nothing and changes nothing. */
  lemma DeleteTwiceNotFound(store: Store, id: int)
    ensures var once := DeleteUser(store, id);
            DeleteUser(once.store, id) == Mutation(Err(NotFound), once.store)
  {
  }

  /** After a delete, fetching the same id is `NotFound`. */
  lemma GetAfterDeleteNotFound(store: Store, id: int)
    ensures GetUserById(DeleteUser(store, id).store, id) == Err(NotFound)
  {
  }

  /** A delete keeps the table's invariants. */
  lemma DeletePreservesValid(store: Store, id: int)
    requires Valid(store)
    ensures Valid(DeleteUser(store, id).store)
  {
  }
}

=== FILE: validation.dfy ===
/** The two zod schemas of the validation layer, with zod's parsing rules made
    explicit: string checks run in the order they are declared, `trim` and
    `toLowerCase` are steps of that sequence which rewrite the value, every failing
    check adds an issue, and `.optional()` admits only `undefined`. */
module Validation {
  import opened Wrappers
  import opened JsValues
  import opened UserModel

  /** The kind of a zod issue. */
  datatype IssueCode =
    | InvalidType       // wrong JavaScript type, or NaN where a number is expected
    | NotInteger        // `.int()`
    | TooSmall          // `.positive()`, `.min(n)`
    | TooBig            // `.max(n)`
    | InvalidEmail      // `.email()`
    | InvalidEnumValue  // `z.enum([...])`

  /** One field-level failure: the path of the offending field ("" for the root) and
      what was wrong with it. */
  datatype Issue = Issue(path: string, code: IssueCode)

  const MinNameLength: nat := 2
  const MaxNameLength: nat := 255
  const MaxEmailLength: nat := 255

  /** Every issue in `issues` concerns the field `path`. */
  predicate AllAt(issues: seq<Issue>, path: string)
  {
    forall i :: 0 <= i < |issues| ==> issues[i].path == path
  }

  /** Some issue in `issues` concerns the field `path`. */
  predicate Mentions(issues: seq<Issue>, path: string)
  {
    exists i :: 0 <= i < |issues| && issues[i].path == path
  }

  lemma MentionsConcat(a: seq<Issue>, b: seq<Issue>, path: string)
    ensures Mentions(a + b, path) <==> Mentions(a, path) || Mentions(b, path)
  {
    if Mentions(a + b, path) {
      var i :| 0 <= i < |a + b| && (a + b)[i].path == path;
      if i >= |a| {
        assert b[i - |a|].path == path;
      } else {
        assert a[i].path == path;
      }
    }
    if Mentions(a, path) {
      var i :| 0 <= i < |a| && a[i].path == path;
      assert (a + b)[i].path == path;
    }
    if Mentions(b, path) {
      var i :| 0 <= i < |b| && b[i].path == path;
      assert (a + b)[|a| + i].path == path;
    }
  }

  /** `Number.isInteger` on a finite number. */
  predicate IsInteger(x: real)
  {
    x.Floor as real == x
  }

  // ---------------------------------------------------------------------------
  // userIdSchema: { id: z.coerce.number().int().positive() }

  /** Reference definition: the raw id is accepted exactly when `Number(raw)` is
      an integer greater than zero. */
  predicate IsValidId(raw: Value)
  {
    var n := ToNumber(raw);
    n.Some? && IsInteger(n.value) && n.value > 0.0
  }

  /** `userIdSchema.safeParse(params)`. */
  function ValidateUserId(params: map<string, Value>): (r: Result<int, seq<Issue>>)
    ensures r.Ok? <==> IsValidId(Get(params, "id"))
    ensures r.Ok? ==> r.value > 0 && Some(r.value as real) == ToNumber(Get(params, "id"))
    ensures r.Err? ==> r.error != [] && AllAt(r.error, "id")
  {
    match ToNumber(Get(params, "id"))
    case None => Err([Issue("id", InvalidType)])
    case Some(x) =>
      var issues :=
        (if IsInteger(x) then [] else [Issue("id", NotInteger)])
        + (if x > 0.0 then [] else [Issue("id", TooSmall)]);
      if issues == [] then Ok(x.Floor) else Err(issues)
  }

  /** Every decimal numeral of a positive integer is accepted as that integer. */
  lemma ValidateUserIdRoundTrip(n: int)
    requires n > 0
    ensures ValidateUserId(map["id" := Str(Decimal(n))]) == Ok(n)
  {
    DecimalRoundTrip(n);
  }

  /** Zero, negative numbers and fractions are refused. */
  lemma ValidateUserIdRejectsNumber(x: real)
    requires x <= 0.0 || !IsInteger(x)
    ensures ValidateUserId(map["id" := Num(x)]).Err?
  {
  }

  /** The id validator applied to a string: the verdict depends only on the number
      the string denotes. */
  lemma ValidateUserIdOfString(s: string, x: real)
    requires StringToNumber(s) == Some(x)
    ensures ValidateUserId(map["id" := Str(s)]).Ok? <==> IsInteger(x) && x > 0.0
  {
    assert Get(map["id" := Str(s)], "id") == Str(s);
  }

  /** Every negative numeral is refused. */
  lemma ValidateUserIdRejectsNegativeNumeral(n: nat)
    ensures ValidateUserId(map["id" := Str("-" + Decimal(n))]).Err?
  {
    NegativeDecimalRoundTrip(n);
    ValidateUserIdOfString("-" + Decimal(n), -(n as real));
  }

  /** A numeral with a non-zero fractional part, such as "1.5", is refused. */
  lemma ValidateUserIdRejectsFractionNumeral(n: nat, d: string)
    requires d != [] && AllDigits(d) && DigitsValue(d) > 0
    ensures ValidateUserId(map["id" := Str(Decimal(n) + "." + d)]).Err?
  {
    var s := Decimal(n) + "." + d;
    FractionNumeralBetween(n, d);
    var x := StringToNumber(s).value;
    NotIntegerBetween(n, x);
    ValidateUserIdRejectsNonInteger(s, x);
  }

  /** A string that denotes a non-integral number is refused. */
  lemma ValidateUserIdRejectsNonInteger(s: string, x: real)
    requires StringToNumber(s) == Some(x) && !IsInteger(x)
    ensures ValidateUserId(map["id" := Str(s)]).Err?
  {
    ValidateUserIdOfString(s, x);
  }

  /** A real strictly between two consecutive integers is not an integer. */
  lemma NotIntegerBetween(n: int, x: real)
    requires n as real < x < n as real + 1.0
    ensures !IsInteger(x)
  {
    var k := x.Floor;
    assert k as real <= x < k as real + 1.0;
    assert k < n + 1 by { assert k as real < (n + 1) as real; }
    assert n < k + 1 by { assert n as real < (k + 1) as real; }
    assert k as real == n as real < x;
  }

  /** The numeral "0" is refused. */
  lemma ValidateUserIdRejectsZeroNumeral()
    ensures ValidateUserId(map["id" := Str("0")]).Err?
  {
    DecimalRoundTrip(0);
    assert Decimal(0) == "0";
    ValidateUserIdOfString("0", 0.0);
  }

  /** A missing id and a non-numeric id are refused with an issue on `id`. */
  lemma ValidateUserIdRejectsNonNumeric()
    ensures ValidateUserId(map[]) == Err([Issue("id", InvalidType)])
    ensures ValidateUserId(map["id" := Str("abc")]) == Err([Issue("id", InvalidType)])
  {
    var t := "abc";
    assert t[0] == 'a' && !IsWhitespace(t[0]) && !IsWhitespace(t[2]);
    TrimUnpadded(t);
    assert LeadingDigits(t) == 0;
  }

  // ---------------------------------------------------------------------------
  // updateUserSchema

  /** The fields of a successfully validated update; anything else in the payload
      is stripped by the schema. */
  datatype UserUpdate = UserUpdate(name: Option<string>, email: Option<string>, role: Option<Role>)

  const NoChanges := UserUpdate(None, None, None)

  /** Reference definition of `z.string().min(2).max(255)` with `.optional()`. */
  predicate NameAccepted(v: Value)
  {
    v == Undefined || (v.Str? && MinNameLength <= |v.s| <= MaxNameLength)
  }

  /** Reference definition of `z.string().email().max(255)` with `.optional()`. */
  predicate EmailAccepted(v: Value, isEmail: string -> bool)
  {
    v == Undefined || (v.Str? && isEmail(v.s) && |v.s| <= MaxEmailLength)
  }

  /** Reference definition of `z.enum(['user', 'admin'])` with `.optional()`. */
  predicate RoleAccepted(v: Value)
  {
    v == Undefined || v == Str("user") || v == Str("admin")
  }

  /** `name: z.string().min(2).max(255).trim().optional()`: the length bounds are
      checked on the string as received, and only then is it trimmed. */
  function ParseName(v: Value): (r: Result<Option<string>, seq<Issue>>)
    ensures r.Ok? <==> NameAccepted(v)
    ensures r.Ok? ==> (r.value.Some? <==> v.Str?)
    ensures r.Ok? && v.Str? ==> r.value.value == Trim(v.s)
    ensures r.Err? ==> r.error != [] && AllAt(r.error, "name")
  {
    match v
    case Undefined => Ok(None)
    case Str(s) =>
      var issues :=
        (if |s| >= MinNameLength then [] else [Issue("name", TooSmall)])
        + (if |s| <= MaxNameLength then [] else [Issue("name", TooBig)]);
      if issues == [] then Ok(Some(Trim(s))) else Err(issues)
    case _ => Err([Issue("name", InvalidType)])
  }

  /** `email: z.string().email().max(255).toLowerCase().trim().optional()`: syntax
      and length are checked on the string as received, then it is lower-cased,
      then trimmed. */
  function ParseEmail(v: Value, isEmail: string -> bool): (r: Result<Option<string>, seq<Issue>>)
    ensures r.Ok? <==> EmailAccepted(v, isEmail)
    ensures r.Ok? ==> (r.value.Some? <==> v.Str?)
    ensures r.Ok? && v.Str? ==> r.value.value == Trim(ToLower(v.s))
    ensures r.Ok? && v.Str? ==> NoUpper(r.value.value) && Unpadded(r.value.value)
    ensures r.Err? ==> r.error != [] && AllAt(r.error, "email")
  {
    match v
    case Undefined => Ok(None)
    case Str(s) =>
      var issues :=
        (if isEmail(s) then [] else [Issue("email", InvalidEmail)])
        + (if |s| <= MaxEmailLength then [] else [Issue("email", TooBig)]);
      if issues == [] then Ok(Some(Trim(ToLower(s)))) else Err(issues)
    case _ => Err([Issue("email", InvalidType)])
  }

  /** `role: z.enum(['user', 'admin']).optional()`. */
  function ParseRole(v: Value): (r: Result<Option<Role>, seq<Issue>>)
    ensures r.Ok? <==> RoleAccepted(v)
    ensures r.Ok? ==> (r.value.Some? <==> v.Str?)
    ensures r.Ok? && r.value.Some? ==> v == Str(RoleName(r.value.value))
    ensures r.Err? ==> r.error != [] && AllAt(r.error, "role")
  {
    match v
    case Undefined => Ok(None)
    case Str(s) =>
      if s == "user" then Ok(Some(User))
      else if s == "admin" then Ok(Some(Admin))
      else Err([Issue("role", InvalidEnumValue)])
    case _ => Err([Issue("role", InvalidType)])
  }

  function IssuesOf<T>(r: Result<T, seq<Issue>>): seq<Issue>
  {
    if r.Err? then r.error else []
  }

  /** `updateUserSchema.safeParse(body)`: every field is parsed and every failure
      is reported, in the order name, email, role. */
  function ValidateUpdate(body: Value, isEmail: string -> bool): (r: Result<UserUpdate, seq<Issue>>)
    ensures r.Ok? <==>
      && body.Object?
      && NameAccepted(Get(body.fields, "name"))
      && EmailAccepted(Get(body.fields, "email"), isEmail)
      && RoleAccepted(Get(body.fields, "role"))
    ensures r.Err? ==> r.error != []
    ensures r.Err? && body.Object? ==>
      && (Mentions(r.error, "name") <==> !NameAccepted(Get(body.fields, "name")))
      && (Mentions(r.error, "email") <==> !EmailAccepted(Get(body.fields, "email"), isEmail))
      && (Mentions(r.error, "role") <==> !RoleAccepted(Get(body.fields, "role")))
    ensures r.Ok? ==>
      var raw := body.fields;
      && (r.value.name.Some? <==> Get(raw, "name").Str?)
      && (r.value.name.Some? ==> r.value.name.value == Trim(Get(raw, "name").s))
      && (r.value.email.Some? <==> Get(raw, "email").Str?)
      && (r.value.email.Some? ==>
            var e := r.value.email.value;
            e == Trim(ToLower(Get(raw, "email").s)) && NoUpper(e) && Unpadded(e))
      && (r.value.role.Some? <==> Get(raw, "role").Str?)
      && (r.value.role.Some? ==> Get(raw, "role") == Str(RoleName(r.value.role.value)))
  {
    match body
    case Object(fields) =>
      var name := ParseName(Get(fields, "name"));
      var email := ParseEmail(Get(fields, "email"), isEmail);
      var role := ParseRole(Get(fields, "role"));
      if name.Ok? && email.Ok? && role.Ok? then
        Ok(UserUpdate(name.value, email.value, role.value))
      else
        var issues := IssuesOf(name) + IssuesOf(email) + IssuesOf(role);
        MentionsConcat(IssuesOf(name) + IssuesOf(email), IssuesOf(role), "name");
        MentionsConcat(IssuesOf(name), IssuesOf(email), "name");
        MentionsConcat(IssuesOf(name) + IssuesOf(email), IssuesOf(role), "email");
        MentionsConcat(IssuesOf(name), IssuesOf(email), "email");
        MentionsConcat(IssuesOf(name) + IssuesOf(email), IssuesOf(role), "role");
        MentionsConcat(IssuesOf(name), IssuesOf(email), "role");
        assert name.Err? ==> IssuesOf(name)[0].path == "name";
        assert email.Err? ==> IssuesOf(email)[0].path == "email";
        assert role.Err? ==> IssuesOf(role)[0].path == "role";
        Err(issues)
    case _ => Err([Issue("", InvalidType)])
  }

  /** Every field is optional: the empty payload is a valid update that changes nothing. */
  lemma EmptyPayloadIsNoChange(isEmail: string -> bool)
    ensures ValidateUpdate(Object(map[]), isEmail) == Ok(NoChanges)
  {
  }

  /** Keys other than name, email and role never influence the outcome. */
  lemma UnknownKeysIgnored(fields: map<string, Value>, isEmail: string -> bool)
    ensures ValidateUpdate(Object(fields), isEmail)
         == ValidateUpdate(Object(fields - (fields.Keys - {"name", "email", "role"})), isEmail)
  {
    var kept := fields - (fields.Keys - {"name", "email", "role"});
    assert Get(kept, "name") == Get(fields, "name");
    assert Get(kept, "email") == Get(fields, "email");
    assert Get(kept, "role") == Get(fields, "role");
  }

  /** A payload carrying only a name of acceptable raw length yields just the
      trimmed name. */
  lemma NameOnlyUpdate(s: string, isEmail: string -> bool)
    requires MinNameLength <= |s| <= MaxNameLength
    ensures ValidateUpdate(Object(map["name" := Str(s)]), isEmail) == Ok(UserUpdate(Some(Trim(s)), None, None))
  {
    var fields := map["name" := Str(s)];
    assert Get(fields, "name") == Str(s);
    assert Get(fields, "email") == Undefined;
    assert Get(fields, "role") == Undefined;
  }

  /** Because the bounds are checked before trimming, a name of two spaces is
      accepted and stored as the empty string. */
  lemma NameBoundsPrecedeTrim(isEmail: string -> bool)
    ensures ValidateUpdate(Object(map["name" := Str("  ")]), isEmail) == Ok(UserUpdate(Some(""), None, None))
  {
    var s := "  ";
    assert Blank(s);
    TrimBlank(s);
    NameOnlyUpdate(s, isEmail);
  }

  /** A payload carrying only an acceptable email yields just the normalised email. */
  lemma EmailOnlyUpdate(s: string, isEmail: string -> bool)
    requires isEmail(s) && |s| <= MaxEmailLength
    ensures ValidateUpdate(Object(map["email" := Str(s)]), isEmail) == Ok(UserUpdate(None, Some(Trim(ToLower(s))), None))
  {
    var fields := map["email" := Str(s)];
    assert Get(fields, "name") == Undefined;
    assert Get(fields, "email") == Str(s);
    assert Get(fields, "role") == Undefined;
  }

  /** An email with upper-case letters and surrounding blanks comes out lower-cased
      and trimmed, provided the email predicate accepts the string as received. */
  lemma EmailNormalised(isEmail: string -> bool)
    requires isEmail("  A@B.COM ")
    ensures ValidateUpdate(Object(map["email" := Str("  A@B.COM ")]), isEmail)
         == Ok(UserUpdate(None, Some("a@b.com"), None))
  {
    var lower := ToLower("  A@B.COM ");
    assert lower == "  " + "a@b.com" + " ";
    TrimPadded("  ", "a@b.com", " ");
    EmailOnlyUpdate("  A@B.COM ", isEmail);
  }
}

=== FILE: wrappers.dfy ===
/** Failure-carrying datatypes shared by every module of the model. */
module Wrappers {

  /** An optional value: `None` stands for a JavaScript field that is absent. */
  datatype Option<+T> = None | Some(value: T)

  /** The outcome of a validator or a repository call: a value or an error. */
  datatype Result<+R, +E> = Ok(value: R) | Err(error: E)
}
